=== FILE: README.md ===
# Token annotation of react-code-input, in Dafny

This project models the token-annotation engine of the `CodeInput` editor
component (`src/compiler/highlighter.ts`). It proves properties of the model.

The engine makes one pass over the tokens of an expression and gives each
token a validity flag. Identifier tokens are dotted paths into an object
described by a JSON Schema, such as `m2.a1`. They also get:

- completion hints: the sibling property paths that extend the identifier,
  ranked by Levenshtein distance;
- the `CallExpression` variant, when the next non-whitespace token is `(`.

The model has six modules, one per file:

- `Wrappers` (`wrappers.dfy`): `Option`, which stands for JavaScript's
  `undefined`/`null` results and for optional fields.
- `Strings` (`strings.dfy`): the JavaScript string operations the engine
  uses, for one-character separators:
  - `split`, modelled as `Split`, and `join`, modelled as `Join`;
  - the non-global `replace(/\//, ".")`, modelled as `ReplaceFirst`;
  - a global replacement, `Translate`, used as the reference `ReplaceFirst`
    is compared with;
  - character counting, `Count`.
- `Levenshtein` (`levenshtein.dfy`):
  - `Dist`, the table recurrence read as a recursive function over prefixes;
  - `LevenshteinDistance`, the two-dimensional array algorithm, proved equal
    to `Dist`.
- `Ranking` (`ranking.dfy`): `sortBySimilarity`.
  - Since ECMAScript 2019 (section 23.1.3.30 of ECMA-262), `Array.prototype.sort`
    must be stable. The ranking is therefore modelled as a stable insertion
    sort keyed by the distance to the query.
  - It is proved to be the only stable sort of its input.
- `Highlighter` (`highlighter.dfy`): `getEditorTokens` with its `getNextToken`
  lookahead, and the path arithmetic of the identifier branch.
- `StoryFixture` (`fixture.dfy`): worked examples on the schema of the
  component's Storybook story, `{ m1: string, m2: { a1, a2 } }`, on a few
  other small schemas, and the distance between `kitten` and `sitting`.

The schema library's `getSchema` is a parameter, `Resolver`. It maps a JSON
Pointer (`""` for the root, `"/m2"`, …) to the sub-schema there, if any. A
sub-schema is reduced to the one thing the engine reads from it: the keys of
its `properties` object, in `Object.keys` order. `Node(None)` stands for a
sub-schema without `properties`. `Node(Some([]))` stands for an empty
`properties` object, which JavaScript treats as truthy.

The prefix of each candidate path is the parent pointer without its leading
`/` (`slice(1)`), passed through `.replace(/\//, ".")`, followed by a `.`. That
regular expression has no `g` flag, so only the first `/` after the leading
one turns back into a `.`. The model keeps this behaviour:

- `NestedPath` states the prefix for any path.
- `ShallowNestedPath` shows that for up to three segments, when the parent
  path holds no `/`, the prefix is the parent path followed by `.`. (A parent
  path that holds a `/` is not given back: `a/b.c` gets the prefix `a.b.`.)
- `DeepPathNeverValid` shows the consequence from four segments on. When the
  parent declares properties, the candidate paths keep a `/` where the
  identifier has a `.`. Such an identifier is never valid and never gets
  hints.
- `DeepPathExample` shows it on `a.b.c.d`.

## Model

| member | source | states |
|---|---|---|
| Levenshtein.Dist | src/compiler/highlighter.ts:35-48 | The table recurrence over prefixes. The distance never exceeds the longer length and is at least the length difference. |
| Levenshtein.LevenshteinDistance | src/compiler/highlighter.ts:19-52 | The array algorithm returns exactly `Dist(a, b)`. It initialises the first column and row, fills the table row by row, and reads the last cell. |
| Levenshtein.FillRow | src/compiler/highlighter.ts:36-47 | Given that rows `0 .. i-1` hold the recurrence, filling row `i` left to right makes rows `0 .. i` hold it. |
| Levenshtein.CellIsDist | src/compiler/highlighter.ts:35-48 | The index recurrence of the array equals the recursive distance of the prefixes `a[..i]` and `b[..j]`. |
| Levenshtein.DistBaseCases | src/compiler/highlighter.ts:27-32 | The first column and row: the distance to or from the empty string is the other string's length. |
| Levenshtein.DistZeroIffEqual | src/compiler/highlighter.ts:37-38 | The distance is zero if and only if the two strings are equal. |
| Levenshtein.DistSelf | src/compiler/highlighter.ts:37-38 | A string is at distance 0 from itself. |
| Levenshtein.DistSymmetric | src/compiler/highlighter.ts:35-48 | The distance does not depend on the order of its arguments. |
| Levenshtein.DistAdjacent | src/compiler/highlighter.ts:40-45 | Dropping the last character of the first string lowers the distance by at most one, and dropping the last character of the second raises it by at most one. |
| Levenshtein.DistNeighbours | src/compiler/highlighter.ts:40-45 | Neighbouring cells of the table differ by at most one: dropping the last character of either string changes the distance by at most one, up or down. |
| Levenshtein.DistExtension | src/compiler/highlighter.ts:35-48 | An extension `p + s` is at distance exactly the length of `s` from `p`, in both argument orders. |
| Ranking.Insert | src/compiler/highlighter.ts:13 | Inserting into a list sorted by key keeps it sorted. The result holds exactly the old words plus the new one. |
| Ranking.SortByKey | src/compiler/highlighter.ts:13 | The sort returns a permutation of its input, non-decreasing in key. |
| Ranking.InsertStable | src/compiler/highlighter.ts:13 | Inserting does not change the order, among themselves, of the words that share a key. |
| Ranking.SortByKeyStable | src/compiler/highlighter.ts:13 | The sort is stable: for every key, the words with that key appear in input order. |
| Ranking.StableSortUnique | src/compiler/highlighter.ts:13 | Two key-ordered sequences that agree, key by key, on the order of their words are equal. |
| Ranking.SortByKeyIsTheStableSort | src/compiler/highlighter.ts:13 | A sequence is a stable sort of the words if and only if it is the result of `SortByKey`. |
| Ranking.SortBySimilarity | src/compiler/highlighter.ts:5-17 | The ranking is a permutation of the words, non-decreasing in edit distance to the query. |
| Ranking.SortBySimilarityIsStable | src/compiler/highlighter.ts:5-17 | The ranking keeps words at equal distance in input order. No other ordering is both sorted and stable. |
| Strings.Count | src/compiler/highlighter.ts:110 | The count of a character is at most the length. It is zero exactly when the character is absent. |
| Strings.CountIsMultiplicity | src/compiler/highlighter.ts:110 | Counting with `split("").filter(...)` gives the multiplicity of the character in the string. |
| Strings.Split | src/compiler/highlighter.ts:63-64 | `split` gives one more piece than there are separators, and no piece holds the separator. |
| Strings.Join | src/compiler/highlighter.ts:64 | `join` of no parts is empty; otherwise the result starts with the first part, and separator-free parts are joined with exactly one separator between each two. |
| Strings.JoinSplit | src/compiler/highlighter.ts:63-64 | Joining the pieces of a split with the same separator gives back the string. |
| Strings.SplitJoin | src/compiler/highlighter.ts:63-64 | Splitting a join of separator-free pieces gives back the pieces. |
| Strings.SplitAround | src/compiler/highlighter.ts:63-64 | Splitting at one separator splits the two sides independently. |
| Strings.JoinTranslate | src/compiler/highlighter.ts:64 | Joining dot-free segments with "/" is joining them with "." and then turning every "." into "/". |
| Strings.ReplaceFirst | src/compiler/highlighter.ts:77 | The non-global replacement keeps the length; at each position it puts `to` where the first `from` is and keeps every other character. |
| Strings.ReplaceFirstAt | src/compiler/highlighter.ts:77 | The non-global replacement changes the first occurrence and leaves everything else in place. |
| Strings.ReplaceFirstCount | src/compiler/highlighter.ts:77 | The non-global replacement agrees with the global one when at most one occurrence exists. Otherwise it leaves one occurrence fewer. |
| Strings.CountTranslate | src/compiler/highlighter.ts:64 | After turning every "." into "/", the "/" count is the old "." count plus the old "/" count. |
| Strings.TranslateBack | src/compiler/highlighter.ts:77 | Turning every `from` into a `to` that did not occur, and back again, is the identity. |
| Highlighter.LastProperty | src/compiler/highlighter.ts:63-64 | `lastProperty` always starts with "/". |
| Highlighter.LastSegment | src/compiler/highlighter.ts:85 | The last dotted segment holds no ".". |
| Highlighter.ParentPointer | src/compiler/highlighter.ts:63-68 | The lookup pointer is the root `""` or starts with "/". An identifier without "." is looked up at the root. |
| Highlighter.SymbolPrefix | src/compiler/highlighter.ts:74-77 | The candidate prefix is as long as the parent pointer and is empty exactly when the pointer is the root. Otherwise it ends with "." and copies the pointer after its leading "/", except that the first "/" there becomes ".". |
| Highlighter.ParentKeys | src/compiler/highlighter.ts:66-72 | Keys are present exactly when the sub-schema at the parent pointer exists and has `properties`; they are the keys of that object. |
| Highlighter.ExtraSymbols | src/compiler/highlighter.ts:70-79 | Candidates exist exactly when the parent declares properties: one per key, and a string is a candidate exactly when it is the prefix followed by a key. A well-formed identifier is a candidate exactly when its last segment is a key. |
| Highlighter.MatchingTokens | src/compiler/highlighter.ts:81-88 | A string is kept for filtering exactly when the parent declares properties, the last segment is not one of them, and the string is the prefix followed by a key. When any are kept, candidate `i` is the prefix followed by key `i`, in the order of the keys. |
| Highlighter.RootPath | src/compiler/highlighter.ts:63-77 | An identifier without "." is looked up at the root pointer `""` with an empty prefix. Its last segment is the whole identifier. |
| Highlighter.NestedPath | src/compiler/highlighter.ts:63-77 | For `p.s`, the pointer is "/" followed by `p` with every "." turned into "/". The prefix turns only the first "/" back, then appends ".". |
| Highlighter.ShallowNestedPath | src/compiler/highlighter.ts:74-77 | With at most one "." in the parent path and no "/", the candidate prefix is the parent path followed by ".". |
| Highlighter.Completions | src/compiler/highlighter.ts:90-95 | A candidate is kept exactly when it properly extends the identifier, as often as it occurs. |
| Highlighter.CompletionsConcat | src/compiler/highlighter.ts:90-95 | The filter keeps the candidates' order: filtering a concatenation is concatenating the filtered parts. |
| Highlighter.ExtensionsByDistanceAreByLength | src/compiler/highlighter.ts:102 | For words that all extend the query, ordering by distance is ordering by length. |
| Highlighter.IdentifierHints | src/compiler/highlighter.ts:81-102 | The hints are the stable sort, by distance to the identifier, of the filtered candidates, so hints at equal distance keep the order of the parent's keys. Every hint properly extends the identifier, and shorter hints come first. There are no hints when the parent declares no properties, or when the last segment already is one of them (even if another key extends it). |
| Highlighter.IdentifierValid | src/compiler/highlighter.ts:103 | An identifier is valid when the parent declares no properties. Otherwise it is valid if and only if it is the prefix followed by a key, for every identifier; for a well-formed one, if and only if its last segment is a key. |
| Highlighter.NumberValid | src/compiler/highlighter.ts:110 | A number literal is valid if and only if it holds fewer than two "." characters. |
| Highlighter.NextTokenIndex | src/compiler/highlighter.ts:121-126 | The lookahead returns the first non-whitespace token after `i`, with only whitespace in between. It returns none when only whitespace follows. |
| Highlighter.VariantAt | src/compiler/highlighter.ts:97-98 | The variant is `CallExpression` if and only if a `(` follows past whitespace alone. |
| Highlighter.AnnotateToken | src/compiler/highlighter.ts:59-118 | Every branch keeps the token's type and value. A number is valid if and only if it has fewer than two "." characters. `unknown` is invalid and other non-identifier types are valid. Only identifiers carry hints and a variant, and each hint extends the identifier. An identifier whose parent declares no properties is valid and has no hints. Under a parent with properties, an identifier is valid if and only if it is the prefix followed by a key; a well-formed one is valid if and only if its last segment is a key. It has no hints when its last segment is a key. |
| Highlighter.GetEditorTokens | src/compiler/highlighter.ts:54-119 | One annotated token per input token, in order, with each of the per-branch properties above at every index, the identifier rules on validity and hints included. |
| Highlighter.HintsAreDeclaredExtensions | src/compiler/highlighter.ts:81-102 | For a well-formed path (its prefix followed by its last segment spells it out, as for a root path or up to three segments without "/"), when the last segment is not a key, a string is a hint if and only if it is the prefix followed by a key that properly extends the last segment. |
| Highlighter.DeepPrefixMismatch | src/compiler/highlighter.ts:77 | With two or more "." in the parent path and no "/", the candidate prefix keeps a "/" where the identifier has a ".". |
| Highlighter.DeepPathNeverValid | src/compiler/highlighter.ts:77 | From four segments on, under a parent with properties, an identifier without "/" is never valid and never gets hints. |
| StoryFixture.StorySchema | stories/code-input.stories.tsx:23-38 | The story's schema has sub-schemas exactly at the root, `m1`, `m2`, `m2/a1` and `m2/a2`; only the root and `m2` declare properties. |
| StoryFixture.TieKeepsOrder | src/compiler/highlighter.ts:13 | Two one-character extensions of the query tie at distance 1 and keep their input order. |
| StoryFixture.RootCompletion | stories/code-input.stories.tsx:23-38 | `m` gets hints `m1` then `m2`, is not valid, and has no variant. |
| StoryFixture.NestedCompletion | stories/code-input.stories.tsx:30-35 | `m2.a` gets hints `m2.a1` then `m2.a2` and is not valid. |
| StoryFixture.NestedVerdict | stories/code-input.stories.tsx:30-35 | Under `m2`, an identifier is valid exactly when its last segment is `a1` or `a2`, and then it gets no hints. |
| StoryFixture.CompletePath | stories/code-input.stories.tsx:30-35 | `m2.a1` is valid and gets no hints. |
| StoryFixture.OpenNodeIsPermissive | stories/code-input.stories.tsx:27-29 | `m1.zz` is under `m1`, which declares no properties, so it is valid and gets no hints. |
| StoryFixture.ExactNameShadowsExtension | src/compiler/highlighter.ts:81-88 | Under keys `a` and `a1`, the identifier `a` is valid and gets no hints. |
| StoryFixture.DeepPrefix | src/compiler/highlighter.ts:77 | The candidate prefix of `a.b.c.d` is `a.b/c.`. |
| StoryFixture.DeepPathExample | src/compiler/highlighter.ts:77 | `a.b.c.d`, under a parent declaring `d`, is not valid and gets no hints. |
| StoryFixture.CallExpressionExample | src/compiler/highlighter.ts:97-98 | `foo (` marks `foo` as a call; `foo` followed by whitespace alone is not one. |
| StoryFixture.NumberExamples | src/compiler/highlighter.ts:106-111 | `1.5` is a valid number and `1.2.3` is not. |
| StoryFixture.KittenSitting | src/compiler/highlighter.ts:19-52 | `kitten` and `sitting` are at distance 3, as for the usual edit distance. |

## Left out

- The internals of `json-schema-library` (`Draft07`, `getSchema`) are a parameter (`Resolver`). Only the keys of the found sub-schema's `properties` are modelled. `$ref` resolution, `anyOf`/`oneOf` and the library's error objects are outside the model.
- `Object.keys` order is taken as given by the resolver. JavaScript lists integer-like keys first in ascending order; the model assumes the resolver already returns that order.
- `subSchema.properties[lastSegment]` tests the truthiness of a property's schema. It is modelled as membership of the key. A `false` boolean schema and inherited prototype keys such as `constructor` are therefore not modelled.
- Strings are sequences of characters. The UTF-16 code-unit behaviour of `length`, `startsWith` and indexing is not modelled.
- The tokenizer and the `Token`/`EditorToken` type definitions (`./types`) are not part of this model. `Token` keeps only a type and a value. Token types other than identifier, number, whitespace, left parenthesis and unknown are carried as `Other(name)`, whose name can be none of those five.
- `sortBySimilarity` sorts `{word, distance}` pairs by distance and projects the words. The model sorts the words by their distance directly, which gives the same sequence because the distance is a function of the word. The sort is an insertion sort proved to be the unique stable sort, not the engine's own sort algorithm.
- The ranking uses the recursive `Dist`. `LevenshteinDistance` is proved to compute the same value, so the two are interchangeable.
- JavaScript numbers are unbounded here: the distances and lengths involved are far below 2^53.
- `src/components/hints.tsx` (the React hint list: DOM measurement, scrolling, mouse events) and the Storybook wiring are user interface, not part of this model. Only the story's schema is used, as a fixture.

=== FILE: fixture.dfy ===
/**
  Worked examples on the schema of the component's Storybook story:
  `{ m1: string, m2: { a1: number, a2: number } }`, given as the resolver a
  pointer lookup on that document produces, and on a few other small schemas.

  Each example takes its token sequence (or path) as a parameter pinned by its
  precondition, rather than as a literal argument, and is assembled from one
  lemma per annotation field. With literal arguments the verifier unfolds the
  recursive string functions on the constants eagerly and the proofs grow far
  beyond what they need; a pinned parameter lets each step unfold only the
  definitions the step asks for.
 */
module StoryFixture {
  import opened Wrappers
  import opened Strings
  import opened Levenshtein
  import opened Ranking
  import opened Highlighter

  /** Pointer lookup on the story's schema: a sub-schema exists at the root
      and at each of the four properties, and only the root and `m2` (the two
      objects) declare properties. */
  function StorySchema(pointer: string): (node: Option<Node>)
    ensures node.Some? <==> pointer in {"", "/m1", "/m2", "/m2/a1", "/m2/a2"}
    ensures node.Some? && node.value.properties.Some? <==> pointer in {"", "/m2"}
  {
    if pointer == "" then Some(Node(Some(["m1", "m2"])))
    else if pointer == "/m2" then Some(Node(Some(["a1", "a2"])))
    else if pointer == "/m1" || pointer == "/m2/a1" || pointer == "/m2/a2" then Some(Node(None))
    else None
  }

  /** Two candidates that both extend the query by one character rank in
      their input order. */
  lemma TieKeepsOrder(query: string, x: char, y: char)
    ensures SortBySimilarity([query + [x], query + [y]], query) == [query + [x], query + [y]]
  {
    DistExtension(query, [x]);
    DistExtension(query, [y]);
    var key := DistanceTo(query);
    assert SortByKey([query + [y]], key) == [query + [y]] by {
      assert [query + [y]][1..] == [];
    }
    assert [query + [x], query + [y]][1..] == [query + [y]];
  }

  /** The hints of an identifier, from its candidates, their completions and
      the ranking of those. */
  lemma HintsFrom(value: string, resolve: Resolver, candidates: seq<string>, kept: seq<string>, ranked: seq<string>)
    requires MatchingTokens(value, resolve) == candidates
    requires Completions(candidates, value) == kept
    requires SortBySimilarity(kept, value) == ranked
    ensures IdentifierHints(value, resolve) == ranked
  {
  }

  /** Two one-character extensions `x` and `y` of `value` rank in that order. */
  lemma PairRanking(value: string, x: string, y: string)
    requires |x| == |value| + 1 && |y| == |value| + 1 && value < x && value < y
    ensures SortBySimilarity([x, y], value) == [x, y]
  {
    assert x == value + [x[|value|]] && y == value + [y[|value|]];
    TieKeepsOrder(value, x[|value|], y[|value|]);
  }

  // ----- `m`: a root path with two completions -----

  lemma RootSymbols()
    ensures ParentKeys("m", StorySchema) == Some(["m1", "m2"])
    ensures Prefixed(SymbolPrefix("m"), ["m1", "m2"]) == ["m1", "m2"]
  {
    RootPath("m");
    assert "" + "m1" == "m1" && "" + "m2" == "m2";
  }

  lemma RootCompletions()
    ensures Completions(["m1", "m2"], "m") == ["m1", "m2"]
  {
    assert ["m1", "m2"][1..] == ["m2"];
    assert ["m2"][1..] == [];
  }

  lemma RootMatching()
    ensures MatchingTokens("m", StorySchema) == ["m1", "m2"]
  {
    RootSymbols();
    RootPath("m");
  }

  lemma RootHintList(value: string)
    requires value == "m"
    ensures IdentifierHints(value, StorySchema) == ["m1", "m2"]
  {
    RootMatching();
    RootCompletions();
    PairRanking(value, "m1", "m2");
    HintsFrom(value, StorySchema, ["m1", "m2"], ["m1", "m2"], ["m1", "m2"]);
  }

  lemma RootHints(tokens: seq<Token>)
    requires tokens == [Token(Identifier, "m")]
    ensures GetEditorTokens(tokens, StorySchema)[0].hints == Some(["m1", "m2"])
  {
    RootHintList(tokens[0].value);
    IdentifierAnnotation(tokens, 0, StorySchema);
  }

  /** At the root, an identifier without "." is valid exactly when it is `m1`
      or `m2`. */
  lemma RootVerdict(value: string)
    requires '.' !in value
    ensures IdentifierValid(value, StorySchema) <==> value == "m1" || value == "m2"
  {
    RootPath(value);
    assert WellFormedPath(value) by {
      assert "" + value == value;
    }
  }

  lemma RootInvalid(tokens: seq<Token>)
    requires tokens == [Token(Identifier, "m")]
    ensures !GetEditorTokens(tokens, StorySchema)[0].valid
  {
    RootVerdict(tokens[0].value);
    IdentifierAnnotation(tokens, 0, StorySchema);
  }

  /** `m` completes to `m1` then `m2` (a tie, kept in key order), is not
      valid, and is no call. */
  lemma RootCompletion(tokens: seq<Token>)
    requires tokens == [Token(Identifier, "m")]
    ensures var r := GetEditorTokens(tokens, StorySchema);
      r[0].hints == Some(["m1", "m2"]) && !r[0].valid && r[0].variant == None
  {
    RootHints(tokens);
    RootInvalid(tokens);
  }

  // ----- `m2.a` and `m2.a1`: nested paths -----

  lemma NestedParent(s: string)
    requires '.' !in s
    ensures SymbolPrefix("m2." + s) == "m2."
    ensures ParentKeys("m2." + s, StorySchema) == Some(["a1", "a2"])
    ensures LastSegment("m2." + s) == s
  {
    assert "m2." + s == "m2" + "." + s;
    ShallowNestedPath("m2", s);
    NestedPath("m2", s);
    TranslateAbsent("m2", '.', '/');
  }

  /** Under `m2`, an identifier is valid exactly when its last segment is
      `a1` or `a2`, and then it gets no hints. */
  lemma NestedVerdict(value: string, s: string)
    requires '.' !in s && value == "m2." + s
    ensures IdentifierValid(value, StorySchema) <==> s == "a1" || s == "a2"
    ensures (s == "a1" || s == "a2") ==> IdentifierHints(value, StorySchema) == []
  {
    NestedParent(s);
    assert WellFormedPath(value);
  }

  lemma NestedSymbols()
    ensures Prefixed("m2.", ["a1", "a2"]) == ["m2.a1", "m2.a2"]
  {
    assert "m2." + "a1" == "m2.a1" && "m2." + "a2" == "m2.a2";
  }

  lemma NestedCompletions()
    ensures Completions(["m2.a1", "m2.a2"], "m2.a") == ["m2.a1", "m2.a2"]
  {
    assert ["m2.a1", "m2.a2"][1..] == ["m2.a2"];
    assert ["m2.a2"][1..] == [];
  }

  lemma NestedMatching()
    ensures MatchingTokens("m2.a", StorySchema) == ["m2.a1", "m2.a2"]
  {
    NestedParent("a");
    assert "m2." + "a" == "m2.a";
    NestedSymbols();
  }

  lemma NestedHintList(value: string)
    requires value == "m2.a"
    ensures IdentifierHints(value, StorySchema) == ["m2.a1", "m2.a2"]
  {
    NestedMatching();
    NestedCompletions();
    PairRanking(value, "m2.a1", "m2.a2");
    HintsFrom(value, StorySchema, ["m2.a1", "m2.a2"], ["m2.a1", "m2.a2"], ["m2.a1", "m2.a2"]);
  }

  lemma NestedHints(tokens: seq<Token>)
    requires tokens == [Token(Identifier, "m2.a")]
    ensures GetEditorTokens(tokens, StorySchema)[0].hints == Some(["m2.a1", "m2.a2"])
  {
    NestedHintList(tokens[0].value);
    IdentifierAnnotation(tokens, 0, StorySchema);
  }

  lemma NestedInvalid(tokens: seq<Token>)
    requires tokens == [Token(Identifier, "m2.a")]
    ensures !GetEditorTokens(tokens, StorySchema)[0].valid
  {
    NestedVerdict("m2.a", "a");
    IdentifierAnnotation(tokens, 0, StorySchema);
  }

  /** `m2.a` completes to `m2.a1` then `m2.a2` and is not valid. */
  lemma NestedCompletion(tokens: seq<Token>)
    requires tokens == [Token(Identifier, "m2.a")]
    ensures var r := GetEditorTokens(tokens, StorySchema);
      r[0].hints == Some(["m2.a1", "m2.a2"]) && !r[0].valid
  {
    NestedHints(tokens);
    NestedInvalid(tokens);
  }

  lemma CompletePathHints(tokens: seq<Token>)
    requires tokens == [Token(Identifier, "m2.a1")]
    ensures GetEditorTokens(tokens, StorySchema)[0].hints == Some([])
  {
    NestedVerdict("m2.a1", "a1");
    IdentifierAnnotation(tokens, 0, StorySchema);
  }

  lemma CompletePathValid(tokens: seq<Token>)
    requires tokens == [Token(Identifier, "m2.a1")]
    ensures GetEditorTokens(tokens, StorySchema)[0].valid
  {
    NestedVerdict("m2.a1", "a1");
    IdentifierAnnotation(tokens, 0, StorySchema);
  }

  /** `m2.a1` names a declared property: valid, and no hints. */
  lemma CompletePath(tokens: seq<Token>)
    requires tokens == [Token(Identifier, "m2.a1")]
    ensures var r := GetEditorTokens(tokens, StorySchema);
      r[0].hints == Some([]) && r[0].valid
  {
    CompletePathHints(tokens);
    CompletePathValid(tokens);
  }

  // ----- Other resolvers -----

  lemma OpenParent()
    ensures ParentKeys("m1.zz", StorySchema) == None
  {
    assert "m1.zz" == "m1" + "." + "zz";
    ShallowNestedPath("m1", "zz");
    TranslateAbsent("m1", '.', '/');
  }

  /** Under an open schema node (`m1` declares no properties) anything goes. */
  lemma OpenNodeIsPermissive(tokens: seq<Token>)
    requires tokens == [Token(Identifier, "m1.zz")]
    ensures var r := GetEditorTokens(tokens, StorySchema);
      r[0].hints == Some([]) && r[0].valid
  {
    OpenParent();
    IdentifierAnnotation(tokens, 0, StorySchema);
  }

  /** A root schema that declares both `a` and `a1`. */
  function ShadowSchema(pointer: string): Option<Node>
  {
    if pointer == "" then Some(Node(Some(["a", "a1"]))) else None
  }

  /** A property name that another property extends gets no hints. */
  lemma ExactNameShadowsExtension(tokens: seq<Token>)
    requires tokens == [Token(Identifier, "a")]
    ensures var r := GetEditorTokens(tokens, ShadowSchema);
      r[0].hints == Some([]) && r[0].valid
  {
    assert IdentifierValid("a", ShadowSchema) && IdentifierHints("a", ShadowSchema) == [] by {
      RootPath("a");
      assert Prefixed("", ["a", "a1"]) == ["a", "a1"] by {
        assert "" + "a" == "a" && "" + "a1" == "a1";
      }
    }
    IdentifierAnnotation(tokens, 0, ShadowSchema);
  }

  /** A schema with the object `/a/b/c` declaring `d` and `x`. */
  function DeepSchema(pointer: string): Option<Node>
  {
    if pointer == "/a/b/c" then Some(Node(Some(["d", "x"]))) else None
  }

  lemma DeepTranslate()
    ensures Translate("a.b.c", '.', '/') == "a/b/c"
  {
  }

  lemma DeepReplace()
    ensures ReplaceFirst("a/b/c", '/', '.') == "a.b/c"
  {
    assert "a/b/c" == "a" + ['/'] + "b/c";
    ReplaceFirstAt("a", "b/c", '/', '.');
  }

  lemma DeepCount()
    ensures Count("a.b.c", '.') >= 2
  {
    assert "a.b.c" == "a." + "b.c";
    CountConcat("a.", "b.c", '.');
  }

  /** The candidate prefix of `a.b.c.d`, with `p` standing for `a.b.c`: only
      the first `/` of `a/b/c` turns back into a dot. */
  lemma DeepPrefix(p: string)
    requires p == "a.b.c"
    ensures SymbolPrefix(p + "." + "d") == "a.b/c."
  {
    NestedPath(p, "d");
    DeepTranslate();
    DeepReplace();
  }

  lemma DeepPointer(p: string)
    requires p == "a.b.c"
    ensures ParentPointer(p + "." + "d") == "/a/b/c"
  {
    NestedLastProperty(p, "d");
    DeepTranslate();
  }

  lemma DeepPathVerdict(p: string)
    requires p == "a.b.c"
    ensures !IdentifierValid(p + "." + "d", DeepSchema)
    ensures IdentifierHints(p + "." + "d", DeepSchema) == []
  {
    DeepPointer(p);
    DeepCount();
    DeepPathNeverValid(p, "d", DeepSchema);
  }

  /** `a.b.c.d`: the candidates under `/a/b/c` are `a.b/c.d` and `a.b/c.x`, so
      even the declared `d` is reported invalid, and nothing is offered. */
  lemma DeepPathExample(tokens: seq<Token>)
    requires tokens == [Token(Identifier, "a.b.c.d")]
    ensures var r := GetEditorTokens(tokens, DeepSchema);
      r[0].hints == Some([]) && !r[0].valid
  {
    var p := tokens[0].value[..5];
    assert p == "a.b.c" && tokens[0].value == p + "." + "d";
    DeepPathVerdict(p);
    IdentifierAnnotation(tokens, 0, DeepSchema);
  }

  // ----- Lookahead and numbers -----

  lemma CallFollowsParen(call: seq<Token>)
    requires call == [Token(Identifier, "foo"), Token(Whitespace, " "), Token(LeftParen, "(")]
    ensures GetEditorTokens(call, StorySchema)[0].variant == Some(CallExpression)
  {
    assert CallFollows(call, 0) by {
      assert call[2].kind == LeftParen;
    }
  }

  lemma NoCallWithoutParen(noCall: seq<Token>)
    requires noCall == [Token(Identifier, "foo"), Token(Whitespace, " ")]
    ensures GetEditorTokens(noCall, StorySchema)[0].variant == None
  {
    assert !CallFollows(noCall, 0);
  }

  /** An identifier followed, past whitespace, by `(` is a call; without the
      parenthesis it is not. */
  lemma CallExpressionExample(call: seq<Token>, noCall: seq<Token>)
    requires call == [Token(Identifier, "foo"), Token(Whitespace, " "), Token(LeftParen, "(")]
    requires noCall == [Token(Identifier, "foo"), Token(Whitespace, " ")]
    ensures GetEditorTokens(call, StorySchema)[0].variant == Some(CallExpression)
    ensures GetEditorTokens(noCall, StorySchema)[0].variant == None
  {
    CallFollowsParen(call);
    NoCallWithoutParen(noCall);
  }

  /** `1.5` is a valid number, `1.2.3` is not. */
  lemma NumberExamples(good: seq<Token>, bad: seq<Token>)
    requires good == [Token(Number, "1.5")] && bad == [Token(Number, "1.2.3")]
    ensures GetEditorTokens(good, StorySchema)[0].valid
    ensures !GetEditorTokens(bad, StorySchema)[0].valid
  {
    CountIsMultiplicity("1.5", '.');
    CountIsMultiplicity("1.2.3", '.');
  }

  // ----- The edit distance on the textbook pair -----

  /** Row 1 of the table for `kitten` and `sitting`. */
  lemma KittenRow1(a: string, b: string)
    requires a == "kitten" && b == "sitting"
    ensures Cell(a, b, 1, 0) == 1
    ensures Cell(a, b, 1, 1) == 1
    ensures Cell(a, b, 1, 2) == 2
    ensures Cell(a, b, 1, 3) == 3
    ensures Cell(a, b, 1, 4) == 4
    ensures Cell(a, b, 1, 5) == 5
    ensures Cell(a, b, 1, 6) == 6
    ensures Cell(a, b, 1, 7) == 7
  {
    assert Cell(a, b, 1, 1) == 1;
    assert Cell(a, b, 1, 2) == 2;
    assert Cell(a, b, 1, 3) == 3;
    assert Cell(a, b, 1, 4) == 4;
    assert Cell(a, b, 1, 5) == 5;
    assert Cell(a, b, 1, 6) == 6;
    assert Cell(a, b, 1, 7) == 7;
  }

  lemma KittenRow2(a: string, b: string)
    requires a == "kitten" && b == "sitting"
    ensures Cell(a, b, 2, 0) == 2
    ensures Cell(a, b, 2, 1) == 2
    ensures Cell(a, b, 2, 2) == 1
    ensures Cell(a, b, 2, 3) == 2
    ensures Cell(a, b, 2, 4) == 3
    ensures Cell(a, b, 2, 5) == 4
    ensures Cell(a, b, 2, 6) == 5
    ensures Cell(a, b, 2, 7) == 6
  {
    KittenRow1(a, b);
    assert Cell(a, b, 2, 1) == 2;
    assert Cell(a, b, 2, 2) == 1;
    assert Cell(a, b, 2, 3) == 2;
    assert Cell(a, b, 2, 4) == 3;
    assert Cell(a, b, 2, 5) == 4;
    assert Cell(a, b, 2, 6) == 5;
    assert Cell(a, b, 2, 7) == 6;
  }

  lemma KittenRow3(a: string, b: string)
    requires a == "kitten" && b == "sitting"
    ensures Cell(a, b, 3, 0) == 3
    ensures Cell(a, b, 3, 1) == 3
    ensures Cell(a, b, 3, 2) == 2
    ensures Cell(a, b, 3, 3) == 1
    ensures Cell(a, b, 3, 4) == 2
    ensures Cell(a, b, 3, 5) == 3
    ensures Cell(a, b, 3, 6) == 4
    ensures Cell(a, b, 3, 7) == 5
  {
    KittenRow2(a, b);
    assert Cell(a, b, 3, 1) == 3;
    assert Cell(a, b, 3, 2) == 2;
    assert Cell(a, b, 3, 3) == 1;
    assert Cell(a, b, 3, 4) == 2;
    assert Cell(a, b, 3, 5) == 3;
    assert Cell(a, b, 3, 6) == 4;
    assert Cell(a, b, 3, 7) == 5;
  }

  lemma KittenRow4(a: string, b: string)
    requires a == "kitten" && b == "sitting"
    ensures Cell(a, b, 4, 0) == 4
    ensures Cell(a, b, 4, 1) == 4
    ensures Cell(a, b, 4, 2) == 3
    ensures Cell(a, b, 4, 3) == 2
    ensures Cell(a, b, 4, 4) == 1
    ensures Cell(a, b, 4, 5) == 2
    ensures Cell(a, b, 4, 6) == 3
    ensures Cell(a, b, 4, 7) == 4
  {
    KittenRow3(a, b);
    assert Cell(a, b, 4, 1) == 4;
    assert Cell(a, b, 4, 2) == 3;
    assert Cell(a, b, 4, 3) == 2;
    assert Cell(a, b, 4, 4) == 1;
    assert Cell(a, b, 4, 5) == 2;
    assert Cell(a, b, 4, 6) == 3;
    assert Cell(a, b, 4, 7) == 4;
  }

  lemma KittenRow5(a: string, b: string)
    requires a == "kitten" && b == "sitting"
    ensures Cell(a, b, 5, 0) == 5
    ensures Cell(a, b, 5, 1) == 5
    ensures Cell(a, b, 5, 2) == 4
    ensures Cell(a, b, 5, 3) == 3
    ensures Cell(a, b, 5, 4) == 2
    ensures Cell(a, b, 5, 5) == 2
    ensures Cell(a, b, 5, 6) == 3
    ensures Cell(a, b, 5, 7) == 4
  {
    KittenRow4(a, b);
    assert Cell(a, b, 5, 1) == 5;
    assert Cell(a, b, 5, 2) == 4;
    assert Cell(a, b, 5, 3) == 3;
    assert Cell(a, b, 5, 4) == 2;
    assert Cell(a, b, 5, 5) == 2;
    assert Cell(a, b, 5, 6) == 3;
    assert Cell(a, b, 5, 7) == 4;
  }

  lemma KittenRow6(a: string, b: string)
    requires a == "kitten" && b == "sitting"
    ensures Cell(a, b, 6, 0) == 6
    ensures Cell(a, b, 6, 1) == 6
    ensures Cell(a, b, 6, 2) == 5
    ensures Cell(a, b, 6, 3) == 4
    ensures Cell(a, b, 6, 4) == 3
    ensures Cell(a, b, 6, 5) == 3
    ensures Cell(a, b, 6, 6) == 2
    ensures Cell(a, b, 6, 7) == 3
  {
    KittenRow5(a, b);
    assert Cell(a, b, 6, 1) == 6;
    assert Cell(a, b, 6, 2) == 5;
    assert Cell(a, b, 6, 3) == 4;
    assert Cell(a, b, 6, 4) == 3;
    assert Cell(a, b, 6, 5) == 3;
    assert Cell(a, b, 6, 6) == 2;
    assert Cell(a, b, 6, 7) == 3;
  }

  /** `kitten` and `sitting` are at distance 3 (two substitutions and one
      insertion), as for the usual edit distance. */
  lemma KittenSitting(a: string, b: string)
    requires a == "kitten" && b == "sitting"
    ensures Dist(a, b) == 3
  {
    KittenRow6(a, b);
    CellIsDist(a, b, 6, 7);
    assert a[..6] == a && b[..7] == b;
  }
}

=== FILE: highlighter.dfy ===
/**
  The token-annotation pass of the editor. Each token of a tokenized
  expression gets a validity flag; identifier tokens, which are dotted paths
  into a JSON-Schema-described object (`m2.a1`), also get ranked completion
  hints and, when the next non-whitespace token is a left parenthesis, the
  `CallExpression` variant.

  The schema library's pointer lookup is a parameter: a `Resolver` maps a
  slash-delimited pointer (`""` for the root, `"/m2"`, ...) to the sub-schema
  found there, if any. A sub-schema is reduced to what the pass reads from it:
  the keys of its `properties` object, in order, when it has one.
 */
module Highlighter {
  import opened Wrappers
  import opened Strings
  import opened Levenshtein
  import opened Ranking

  // ----- Data model -----

  /** The name of a token type the pass does not tell apart: any name but
      those of the five types it does. */
  type OtherName = name: string | name !in {"identifier", "number", "whitespace", "leftParen", "unknown"}
    witness "operator"

  /** The token types the pass tells apart; every other type of the tokenizer
      is `Other`, carrying its name. */
  datatype TokenType = Identifier | Number | Whitespace | LeftParen | Unknown | Other(name: OtherName)

  datatype Token = Token(kind: TokenType, value: string)

  datatype Variant = CallExpression

  /** A token with its annotations. `hints` is `None` where `getEditorTokens`
      leaves the field out (every token that is not an identifier); `variant` is
      `None` where it is left out or `undefined`. */
  datatype EditorToken = EditorToken(
    kind: TokenType,
    value: string,
    valid: bool,
    hints: Option<seq<string>>,
    variant: Option<Variant>)

  /** A sub-schema: the keys of its `properties`, or `None` when it has none.
      `Some([])` is an empty `properties` object, which still counts as present. */
  datatype Node = Node(properties: Option<seq<string>>)

  /** The schema lookup: pointer to sub-schema, `None` when nothing is there. */
  type Resolver = string -> Option<Node>

  // ----- From a dotted identifier to its parent -----

  /** `lastProperty`: "/" followed by every dotted segment but the last, joined by "/". */
  function LastProperty(value: string): (lp: string)
    ensures |lp| >= 1 && lp[0] == '/'
  {
    var segments := Split(value, '.');
    "/" + Join(segments[..|segments| - 1], '/')
  }

  /** The last dotted segment of the identifier. */
  function LastSegment(value: string): (s: string)
    ensures '.' !in s
  {
    var segments := Split(value, '.');
    segments[|segments| - 1]
  }

  /** The pointer of the parent sub-schema; `"/"` (no parent segments) becomes
      the root `""`. A pointer is the root or starts with "/", and an identifier
      without "." is looked up at the root (`NestedPath` gives the pointer of
      every other identifier). */
  function ParentPointer(value: string): (pointer: string)
    ensures pointer == "" || pointer[0] == '/'
    ensures '.' !in value ==> pointer == ""
  {
    var lp := LastProperty(value);
    assert '.' !in value ==> lp == "/" by {
      if '.' !in value {
        SplitNoSeparator(value, '.');
      }
    }
    if lp == "/" then "" else lp
  }

  /** The prefix put in front of each property key to make a full candidate
      path: the parent pointer without its leading "/" (`slice(1)`), in which
      only the first "/" turns back into "." (the engine's `replace` has no
      global flag), followed by ".". */
  function SymbolPrefix(value: string): (prefix: string)
    ensures |prefix| == |ParentPointer(value)|
    ensures prefix == "" <==> ParentPointer(value) == ""
    ensures prefix != "" ==> prefix[|prefix| - 1] == '.'
    ensures forall k :: 0 <= k < |prefix| - 1 ==>
      prefix[k] == if ParentPointer(value)[k + 1] == '/' && '/' !in ParentPointer(value)[1..k + 1]
        then '.' else ParentPointer(value)[k + 1]
  {
    var lp := LastProperty(value);
    if lp == "/" then ""
    else
      var tail := lp[1..];
      assert forall k :: 0 <= k < |tail| ==> tail[..k] == lp[1..k + 1];
      ReplaceFirst(tail, '/', '.') + "."
  }

  function Prefixed(prefix: string, keys: seq<string>): (r: seq<string>)
    ensures |r| == |keys|
    ensures forall i :: 0 <= i < |keys| ==> r[i] == prefix + keys[i]
  {
    seq(|keys|, i requires 0 <= i < |keys| => prefix + keys[i])
  }

  /** The property keys of the parent sub-schema, when it exists and has `properties`. */
  function ParentKeys(value: string, resolve: Resolver): (keys: Option<seq<string>>)
    ensures keys.Some? <==> resolve(ParentPointer(value)).Some? && resolve(ParentPointer(value)).value.properties.Some?
    ensures keys.Some? ==> keys.value == resolve(ParentPointer(value)).value.properties.value
  {
    match resolve(ParentPointer(value))
    case Some(Node(Some(keys))) => Some(keys)
    case _ => None
  }

  /** A candidate path is its prefix followed by its key. */
  lemma PrefixedMember(pre: string, keys: seq<string>, h: string)
    ensures h in Prefixed(pre, keys) <==> exists k :: k in keys && h == pre + k
  {
    var symbols := Prefixed(pre, keys);
    if exists k :: k in keys && h == pre + k {
      var k :| k in keys && h == pre + k;
      var i :| 0 <= i < |keys| && keys[i] == k;
      assert symbols[i] == h;
    }
  }

  /** `extraSymbols`: every key of the parent, as a full candidate path. There
      is one candidate per key, a string is a candidate exactly when it is the
      prefix followed by a key, and a well-formed identifier is among them
      exactly when its last segment is a key. */
  function ExtraSymbols(value: string, resolve: Resolver): (symbols: Option<seq<string>>)
    ensures symbols.Some? <==> ParentKeys(value, resolve).Some?
    ensures symbols.Some? ==> |symbols.value| == |ParentKeys(value, resolve).value|
    ensures symbols.Some? ==> forall h :: h in symbols.value <==>
      exists k :: k in ParentKeys(value, resolve).value && h == SymbolPrefix(value) + k
    ensures symbols.Some? && WellFormedPath(value) ==>
      (value in symbols.value <==> LastSegment(value) in ParentKeys(value, resolve).value)
  {
    match ParentKeys(value, resolve)
    case Some(keys) =>
      var pre, last := SymbolPrefix(value), LastSegment(value);
      var symbols := Prefixed(pre, keys);
      assert pre + last in symbols <==> last in keys by {
        PrefixedMember(pre, keys, pre + last);
        forall k | k in keys && pre + last == pre + k
          ensures k == last
        {
          PrefixCancel(pre, last, k);
        }
      }
      assert forall h :: h in symbols <==> exists k :: k in keys && h == pre + k by {
        forall h {
          PrefixedMember(pre, keys, h);
        }
      }
      Some(symbols)
    case None => None
  }

  /** `matchingTokens` before filtering: the candidates, unless the last
      segment already names a property of the parent. A string is a candidate
      exactly when the parent declares properties but not the last segment,
      and the string is the prefix followed by one of them; the candidates
      follow the order of the keys. */
  function MatchingTokens(value: string, resolve: Resolver): (candidates: seq<string>)
    ensures candidates != [] ==>
      ParentKeys(value, resolve).Some? && LastSegment(value) !in ParentKeys(value, resolve).value
    ensures forall h :: h in candidates <==>
      ParentKeys(value, resolve).Some? && LastSegment(value) !in ParentKeys(value, resolve).value &&
      exists k :: k in ParentKeys(value, resolve).value && h == SymbolPrefix(value) + k
    ensures candidates != [] ==>
      |candidates| == |ParentKeys(value, resolve).value| &&
      forall i :: 0 <= i < |candidates| ==> candidates[i] == SymbolPrefix(value) + ParentKeys(value, resolve).value[i]
  {
    match ParentKeys(value, resolve)
    case Some(keys) =>
      if LastSegment(value) !in keys then
        var candidates := Prefixed(SymbolPrefix(value), keys);
        assert forall h :: h in candidates <==> exists k :: k in keys && h == SymbolPrefix(value) + k by {
          forall h {
            PrefixedMember(SymbolPrefix(value), keys, h);
          }
        }
        candidates
      else []
    case None => []
  }

  /** The completion filter: at least as long as `value`, starting with it, and
      different from it. These are exactly the proper extensions of `value`;
      each is kept as often as it occurs, in order. */
  function Completions(candidates: seq<string>, value: string): (r: seq<string>)
    ensures forall v :: multiset(r)[v] == if value < v then multiset(candidates)[v] else 0
  {
    if |candidates| == 0 then []
    else
      var v := candidates[0];
      assert candidates == [v] + candidates[1..];
      (if |v| >= |value| && value <= v && v != value then [v] else []) + Completions(candidates[1..], value)
  }

  /** The filter keeps the candidates' order: filtering a concatenation is
      concatenating the filtered parts. */
  lemma {:induction false} CompletionsConcat(a: seq<string>, b: seq<string>, value: string)
    ensures Completions(a + b, value) == Completions(a, value) + Completions(b, value)
  {
    if |a| == 0 {
      assert a + b == b;
    } else {
      assert (a + b)[0] == a[0] && (a + b)[1..] == a[1..] + b;
      CompletionsConcat(a[1..], b, value);
    }
  }

  /** When every word extends `query`, ordering by distance to `query` is
      ordering by length: the distance is the length of the extension. */
  lemma ExtensionsByDistanceAreByLength(words: seq<string>, query: string)
    requires forall i :: 0 <= i < |words| ==> query < words[i]
    requires forall i, j :: 0 <= i < j < |words| ==> Dist(words[i], query) <= Dist(words[j], query)
    ensures forall i, j :: 0 <= i < j < |words| ==> |words[i]| <= |words[j]|
  {
    forall i | 0 <= i < |words|
      ensures Dist(words[i], query) == |words[i]| - |query|
    {
      var w := words[i];
      assert w == query + w[|query|..];
      DistExtension(query, w[|query|..]);
    }
  }

  /** The hints of an identifier: the completions of its candidates, ranked
      by similarity. The ranking is the stable sort of the completions by
      distance, so hints at equal distance keep the order of the parent's
      keys. Each hint properly extends the identifier, so the ranking puts
      shorter hints first. */
  function IdentifierHints(value: string, resolve: Resolver): (hints: seq<string>)
    ensures forall i :: 0 <= i < |hints| ==> value < hints[i]
    ensures forall i, j :: 0 <= i < j < |hints| ==> |hints[i]| <= |hints[j]|
    ensures ParentKeys(value, resolve).None? ==> hints == []
    ensures ParentKeys(value, resolve).Some? && LastSegment(value) in ParentKeys(value, resolve).value ==>
      hints == []
    ensures IsStableSort(hints, Completions(MatchingTokens(value, resolve), value), DistanceTo(value))
  {
    var completions := Completions(MatchingTokens(value, resolve), value);
    var hints := SortBySimilarity(completions, value);
    SortBySimilarityIsStable(completions, value, []);
    assert forall i :: 0 <= i < |hints| ==> value < hints[i] by {
      forall i | 0 <= i < |hints|
        ensures value < hints[i]
      {
        assert multiset(hints)[hints[i]] > 0;
      }
    }
    ExtensionsByDistanceAreByLength(hints, value);
    hints
  }

  /** An identifier is valid when the parent declares no properties, and
      otherwise exactly when it is one of the candidate paths, the prefix
      followed by a key: for a well-formed path, when its last segment is one
      of the properties. */
  function IdentifierValid(value: string, resolve: Resolver): (valid: bool)
    ensures ParentKeys(value, resolve).None? ==> valid
    ensures ParentKeys(value, resolve).Some? ==>
      (valid <==> exists k :: k in ParentKeys(value, resolve).value && value == SymbolPrefix(value) + k)
    ensures ParentKeys(value, resolve).Some? && WellFormedPath(value) ==>
      (valid <==> LastSegment(value) in ParentKeys(value, resolve).value)
  {
    match ExtraSymbols(value, resolve)
    case Some(symbols) => value in symbols
    case None => true
  }

  /** A number literal is valid when it holds fewer than two "." characters. */
  function NumberValid(value: string): (valid: bool)
    ensures valid <==> multiset(value)['.'] < 2
  {
    CountIsMultiplicity(value, '.');
    Count(value, '.') < 2
  }

  // ----- Lookahead -----

  /** `getNextToken(i)`: the index of the first token after `i` that is not
      whitespace, or `None` when only whitespace follows. */
  function NextTokenIndex(tokens: seq<Token>, i: nat): (r: Option<nat>)
    ensures r.Some? ==> i < r.value < |tokens| && tokens[r.value].kind != Whitespace
    ensures r.Some? ==> forall m :: i < m < r.value ==> tokens[m].kind == Whitespace
    ensures r.None? ==> forall m :: i < m < |tokens| ==> tokens[m].kind == Whitespace
    decreases |tokens| - i
  {
    if i + 1 >= |tokens| then None
    else if tokens[i + 1].kind == Whitespace then NextTokenIndex(tokens, i + 1)
    else Some(i + 1)
  }

  /** Token `i` is followed, past whitespace only, by a left parenthesis. */
  ghost predicate CallFollows(tokens: seq<Token>, i: nat)
  {
    exists k :: i < k < |tokens| && tokens[k].kind == LeftParen
      && forall m :: i < m < k ==> tokens[m].kind == Whitespace
  }

  /** The variant of an identifier at index `i`. */
  function VariantAt(tokens: seq<Token>, i: nat): (v: Option<Variant>)
    ensures v == Some(CallExpression) <==> CallFollows(tokens, i)
    ensures v.None? || v == Some(CallExpression)
  {
    var next := NextTokenIndex(tokens, i);
    if next.Some? && tokens[next.value].kind == LeftParen then Some(CallExpression) else None
  }

  // ----- The pass -----

  /** The annotation of token `i`. Every branch keeps the token's type and
      value; only identifiers get hints and a variant. */
  function AnnotateToken(tokens: seq<Token>, i: nat, resolve: Resolver): (t: EditorToken)
    requires i < |tokens|
    ensures t.kind == tokens[i].kind && t.value == tokens[i].value
    ensures t.kind == Number ==> (t.valid <==> multiset(t.value)['.'] < 2)
    ensures t.kind == Unknown ==> !t.valid
    ensures !(t.kind in {Identifier, Number, Unknown}) ==> t.valid
    ensures t.kind != Identifier ==> t.hints.None? && t.variant.None?
    ensures t.kind == Identifier ==>
      t.hints.Some? && forall j :: 0 <= j < |t.hints.value| ==> t.value < t.hints.value[j]
    ensures t.kind == Identifier ==> (t.variant == Some(CallExpression) <==> CallFollows(tokens, i))
    ensures t.kind == Identifier && ParentKeys(t.value, resolve).None? ==> t.valid && t.hints == Some([])
    ensures t.kind == Identifier && ParentKeys(t.value, resolve).Some? ==>
      (t.valid <==> exists k :: k in ParentKeys(t.value, resolve).value && t.value == SymbolPrefix(t.value) + k)
    ensures t.kind == Identifier && ParentKeys(t.value, resolve).Some? && WellFormedPath(t.value) ==>
      (t.valid <==> LastSegment(t.value) in ParentKeys(t.value, resolve).value)
    ensures (t.kind == Identifier && ParentKeys(t.value, resolve).Some? &&
      LastSegment(t.value) in ParentKeys(t.value, resolve).value) ==> t.hints == Some([])
  {
    var token := tokens[i];
    match token.kind
    case Identifier =>
      EditorToken(token.kind, token.value, IdentifierValid(token.value, resolve),
        Some(IdentifierHints(token.value, resolve)), VariantAt(tokens, i))
    case Number => EditorToken(token.kind, token.value, NumberValid(token.value), None, None)
    case Unknown => EditorToken(token.kind, token.value, false, None, None)
    case _ => EditorToken(token.kind, token.value, true, None, None)
  }

  /** `getEditorTokens(tokens, schema)`: one annotated token per input token,
      in order, each keeping its token's type and value. */
  function GetEditorTokens(tokens: seq<Token>, resolve: Resolver): (r: seq<EditorToken>)
    ensures |r| == |tokens|
    ensures forall i :: 0 <= i < |tokens| ==> r[i].kind == tokens[i].kind && r[i].value == tokens[i].value
    ensures forall i :: 0 <= i < |tokens| && tokens[i].kind == Number ==>
      (r[i].valid <==> multiset(tokens[i].value)['.'] < 2)
    ensures forall i :: 0 <= i < |tokens| && tokens[i].kind == Unknown ==> !r[i].valid
    ensures forall i :: 0 <= i < |tokens| && !(tokens[i].kind in {Identifier, Number, Unknown}) ==> r[i].valid
    ensures forall i :: 0 <= i < |tokens| && tokens[i].kind != Identifier ==>
      r[i].hints.None? && r[i].variant.None?
    ensures forall i :: 0 <= i < |tokens| && tokens[i].kind == Identifier ==>
      r[i].hints.Some? && forall j :: 0 <= j < |r[i].hints.value| ==> tokens[i].value < r[i].hints.value[j]
    ensures forall i :: 0 <= i < |tokens| && tokens[i].kind == Identifier ==>
      (r[i].variant == Some(CallExpression) <==> CallFollows(tokens, i))
    ensures forall i ::
      (0 <= i < |tokens| && tokens[i].kind == Identifier && ParentKeys(tokens[i].value, resolve).None?) ==>
      r[i].valid && r[i].hints == Some([])
    ensures forall i ::
      (0 <= i < |tokens| && tokens[i].kind == Identifier && ParentKeys(tokens[i].value, resolve).Some?) ==>
      (r[i].valid <==>
        exists k :: k in ParentKeys(tokens[i].value, resolve).value && tokens[i].value == SymbolPrefix(tokens[i].value) + k)
    ensures forall i ::
      (0 <= i < |tokens| && tokens[i].kind == Identifier && ParentKeys(tokens[i].value, resolve).Some? &&
       WellFormedPath(tokens[i].value)) ==>
      (r[i].valid <==> LastSegment(tokens[i].value) in ParentKeys(tokens[i].value, resolve).value)
    ensures forall i ::
      (0 <= i < |tokens| && tokens[i].kind == Identifier && ParentKeys(tokens[i].value, resolve).Some? &&
       LastSegment(tokens[i].value) in ParentKeys(tokens[i].value, resolve).value) ==>
      r[i].hints == Some([])
  {
    seq(|tokens|, i requires 0 <= i < |tokens| => AnnotateToken(tokens, i, resolve))
  }

  /** The annotation of an identifier token, field by field. */
  lemma IdentifierAnnotation(tokens: seq<Token>, i: nat, resolve: Resolver)
    requires i < |tokens| && tokens[i].kind == Identifier
    ensures GetEditorTokens(tokens, resolve)[i].valid == IdentifierValid(tokens[i].value, resolve)
    ensures GetEditorTokens(tokens, resolve)[i].hints == Some(IdentifierHints(tokens[i].value, resolve))
  {
  }

  // ----- What the identifier branch means -----

  /** A path without "." is looked up at the root and its candidates are the
      bare property keys. */
  lemma RootPath(s: string)
    requires '.' !in s
    ensures LastSegment(s) == s
    ensures ParentPointer(s) == ""
    ensures SymbolPrefix(s) == ""
  {
    SplitNoSeparator(s, '.');
  }

  /** For `p.s` with a dot-free last segment `s`: the parent pointer is `p`
      with every "." turned into "/", behind a leading "/" (the root when `p`
      is empty); the candidate prefix turns only the first "/" back. */
  lemma {:induction false} NestedPath(p: string, s: string)
    requires '.' !in s
    ensures LastSegment(p + "." + s) == s
    ensures ParentPointer(p + "." + s) == if p == "" then "" else "/" + Translate(p, '.', '/')
    ensures SymbolPrefix(p + "." + s) == if p == "" then "" else ReplaceFirst(Translate(p, '.', '/'), '/', '.') + "."
  {
    NestedLastProperty(p, s);
    var lp := LastProperty(p + "." + s);
    assert lp[1..] == Translate(p, '.', '/');
  }

  /** The `lastProperty` of `p.s`: "/" followed by `p` with every "." turned into "/". */
  lemma {:induction false} NestedLastProperty(p: string, s: string)
    requires '.' !in s
    ensures LastSegment(p + "." + s) == s
    ensures LastProperty(p + "." + s) == "/" + Translate(p, '.', '/')
  {
    var value := p + "." + s;
    var segments := Split(value, '.');
    SplitAround(p, s, '.');
    SplitNoSeparator(s, '.');
    assert segments == Split(p, '.') + [s];
    assert segments[..|segments| - 1] == Split(p, '.');
    JoinTranslate(Split(p, '.'), '.', '/');
    JoinSplit(p, '.');
  }

  /** Up to three segments (at most one "." before the last segment) and no
      "/": the candidate prefix is the parent path itself followed by ".". */
  lemma ShallowNestedPath(p: string, s: string)
    requires '.' !in s && '/' !in p && p != ""
    requires Count(p, '.') <= 1
    ensures SymbolPrefix(p + "." + s) == p + "."
    ensures ParentPointer(p + "." + s) == "/" + Translate(p, '.', '/')
  {
    NestedPath(p, s);
    CountTranslate(p, '.', '/');
    ReplaceFirstCount(Translate(p, '.', '/'), '/', '.');
    TranslateBack(p, '.', '/');
  }

  /** A path is well formed when its candidate prefix followed by its last
      segment spells it out again (true of root paths and of shallow nested
      paths, see `RootPath` and `ShallowNestedPath`). */
  predicate WellFormedPath(value: string)
  {
    SymbolPrefix(value) + LastSegment(value) == value
  }

  lemma PrefixCancel(pre: string, a: string, b: string)
    ensures pre + a == pre + b <==> a == b
    ensures pre + a < pre + b <==> a < b
  {
    assert (pre + a)[|pre|..] == a && (pre + b)[|pre|..] == b;
    if a < b {
      assert (pre + b)[..|pre + a|] == pre + b[..|a|];
    }
  }

  /** Candidates that neither equal nor extend `value` leave no completions. */
  lemma {:induction false} NoCompletions(candidates: seq<string>, value: string)
    requires forall i :: 0 <= i < |candidates| ==> !(value <= candidates[i])
    ensures Completions(candidates, value) == []
  {
    if |candidates| > 0 {
      NoCompletions(candidates[1..], value);
    }
  }

  /** With a parent that declares properties but not the last segment itself,
      the hints of a well-formed identifier are exactly the sibling paths whose
      key properly extends the last segment. */
  lemma HintsAreDeclaredExtensions(value: string, resolve: Resolver, h: string)
    requires WellFormedPath(value)
    requires ParentKeys(value, resolve).Some? && LastSegment(value) !in ParentKeys(value, resolve).value
    ensures h in IdentifierHints(value, resolve) <==>
      exists k :: k in ParentKeys(value, resolve).value && LastSegment(value) < k && h == SymbolPrefix(value) + k
  {
    var keys, pre, last := ParentKeys(value, resolve).value, SymbolPrefix(value), LastSegment(value);
    var symbols := Prefixed(pre, keys);
    assert h in IdentifierHints(value, resolve) <==> value < h && h in symbols by {
      var hints := IdentifierHints(value, resolve);
      var completions := Completions(symbols, value);
      assert h in hints <==> multiset(hints)[h] > 0;
      assert multiset(hints)[h] == multiset(completions)[h];
    }
    PrefixedMember(pre, keys, h);
    if k :| k in keys && h == pre + k {
      PrefixCancel(pre, last, k);
    }
  }

  /** Replacing one "/" of a path with at least two of them leaves a "/". */
  lemma SlashSurvives(p: string)
    requires '/' !in p && Count(p, '.') >= 2
    ensures '/' in ReplaceFirst(Translate(p, '.', '/'), '/', '.')
  {
    CountTranslate(p, '.', '/');
    ReplaceFirstCount(Translate(p, '.', '/'), '/', '.');
  }

  /** Candidates whose prefix disagrees with `value` at some index are neither
      `value` nor extensions of it. */
  lemma DisagreeingPrefix(pre: string, keys: seq<string>, value: string, j: nat)
    requires j < |pre| && j < |value| && pre[j] != value[j]
    ensures forall i :: 0 <= i < |Prefixed(pre, keys)| ==> !(value <= Prefixed(pre, keys)[i])
  {
    var symbols := Prefixed(pre, keys);
    forall i | 0 <= i < |symbols|
      ensures !(value <= symbols[i])
    {
      assert symbols[i][j] == pre[j];
    }
  }

  /** When no candidate equals or extends an identifier, it is invalid and has
      no hints. */
  lemma NothingMatches(value: string, resolve: Resolver)
    requires ParentKeys(value, resolve).Some?
    requires forall i :: 0 <= i < |Prefixed(SymbolPrefix(value), ParentKeys(value, resolve).value)| ==>
      !(value <= Prefixed(SymbolPrefix(value), ParentKeys(value, resolve).value)[i])
    ensures !IdentifierValid(value, resolve)
    ensures IdentifierHints(value, resolve) == []
  {
    NoCompletions(Prefixed(SymbolPrefix(value), ParentKeys(value, resolve).value), value);
  }

  /** In `p.s` with at least two dots in `p` and no "/", the candidate prefix
      holds a "/" at an index `j` where the identifier does not. */
  lemma DeepPrefixMismatch(p: string, s: string) returns (j: nat)
    requires '.' !in s && '/' !in p
    requires Count(p, '.') >= 2
    ensures j < |SymbolPrefix(p + "." + s)| && j < |p + "." + s|
    ensures SymbolPrefix(p + "." + s)[j] == '/' && (p + "." + s)[j] == '.'
  {
    NestedPath(p, s);
    var first := ReplaceFirst(Translate(p, '.', '/'), '/', '.');
    SlashSurvives(p);
    j :| 0 <= j < |first| && first[j] == '/';
    assert (p + "." + s)[j] == p[j] && p[j] in p;
    assert SymbolPrefix(p + "." + s)[j] == first[j];
  }

  /** The non-global replacement in `SymbolPrefix`: from four segments on, the
      candidate paths keep a "/" where the identifier has a ".", so an
      identifier without "/" under a parent with properties is never valid and
      never gets hints. */
  lemma DeepPathNeverValid(p: string, s: string, resolve: Resolver)
    requires '.' !in s && '/' !in p
    requires Count(p, '.') >= 2
    requires ParentKeys(p + "." + s, resolve).Some?
    ensures !IdentifierValid(p + "." + s, resolve)
    ensures IdentifierHints(p + "." + s, resolve) == []
  {
    var value := p + "." + s;
    var j := DeepPrefixMismatch(p, s);
    DisagreeingPrefix(SymbolPrefix(value), ParentKeys(value, resolve).value, value, j);
    NothingMatches(value, resolve);
  }
}

=== FILE: levenshtein.dfy ===
/**
  The edit distance used to rank completions. `Dist` is the recurrence of the
  dynamic-programming table read as a recursive function over prefixes: cell
  `[i][j]` of the table is `Dist(a[..i], b[..j])`. `LevenshteinDistance` fills
  the table in a two-dimensional array, row by row, and is proved to agree.
 */
module Levenshtein {

  function Min3(x: nat, y: nat, z: nat): (m: nat)
    ensures m <= x && m <= y && m <= z
    ensures m == x || m == y || m == z
  {
    if x <= y && x <= z then x else if y <= z then y else z
  }

  function Max(x: nat, y: nat): nat
  {
    if x <= y then y else x
  }

  /** The table recurrence: the first row and column count characters; equal
      last characters copy the diagonal cell; otherwise one more than the
      least of the cells above, to the left and on the diagonal. The result
      never exceeds the longer length and is at least the length difference. */
  function Dist(a: string, b: string): (d: nat)
    ensures d <= Max(|a|, |b|)
    ensures d >= |a| - |b| && d >= |b| - |a|
    decreases |a| + |b|
  {
    if |a| == 0 then |b|
    else if |b| == 0 then |a|
    else if a[|a| - 1] == b[|b| - 1] then Dist(a[..|a| - 1], b[..|b| - 1])
    else Min3(Dist(a[..|a| - 1], b), Dist(a, b[..|b| - 1]), Dist(a[..|a| - 1], b[..|b| - 1])) + 1
  }

  /** Cell `[i][j]` of the table for `a` and `b`, by the same recurrence on
      indices: `Dist` of the prefixes of lengths `i` and `j` (`CellIsDist`). */
  ghost function Cell(a: string, b: string, i: nat, j: nat): nat
    requires i <= |a| && j <= |b|
  {
    if i == 0 then j
    else if j == 0 then i
    else if a[i - 1] == b[j - 1] then Cell(a, b, i - 1, j - 1)
    else Min3(Cell(a, b, i - 1, j), Cell(a, b, i, j - 1), Cell(a, b, i - 1, j - 1)) + 1
  }

  /** Rows `0 .. rows - 1` of `t` hold the table for `a` and `b`. */
  ghost predicate RowsFilled(t: array2<nat>, a: string, b: string, rows: nat)
    reads t
  {
    forall r, c {:trigger t[r, c]} :: 0 <= r < rows && r <= |a| && r < t.Length0 && 0 <= c <= |b| && c < t.Length1 ==>
      t[r, c] == Cell(a, b, r, c)
  }

  /** The table algorithm: a `(|a|+1) x (|b|+1)` array whose first column and
      first row are initialised to their indices, then filled row by row. */
  method LevenshteinDistance(a: string, b: string) returns (d: nat)
    ensures d == Dist(a, b)
  {
    var distances := new nat[|a| + 1, |b| + 1];
    for i := 0 to |a| + 1
      invariant forall r :: 0 <= r < i ==> distances[r, 0] == r
    {
      distances[i, 0] := i;
    }
    for j := 0 to |b| + 1
      invariant forall r :: 0 <= r <= |a| ==> distances[r, 0] == r
      invariant forall c :: 0 <= c < j ==> distances[0, c] == c
    {
      distances[0, j] := j;
    }
    for i := 1 to |a| + 1
      invariant RowsFilled(distances, a, b, i)
      invariant forall r :: i <= r <= |a| ==> distances[r, 0] == r
    {
      FillRow(distances, a, b, i);
    }
    d := distances[|a|, |b|];
    CellIsDist(a, b, |a|, |b|);
    assert a[..|a|] == a && b[..|b|] == b;
  }

  /** Fills row `i` of the table from the row above it, left to right. */
  method FillRow(distances: array2<nat>, a: string, b: string, i: nat)
    requires distances.Length0 == |a| + 1 && distances.Length1 == |b| + 1
    requires 1 <= i <= |a|
    requires RowsFilled(distances, a, b, i)
    requires forall r :: i <= r <= |a| ==> distances[r, 0] == r
    modifies distances
    ensures RowsFilled(distances, a, b, i + 1)
    ensures forall r :: i < r <= |a| ==> distances[r, 0] == r
  {
    for j := 1 to |b| + 1
      invariant RowsFilled(distances, a, b, i)
      invariant forall r :: i <= r <= |a| ==> distances[r, 0] == r
      invariant forall c {:trigger distances[i, c]} :: 0 <= c < j ==> distances[i, c] == Cell(a, b, i, c)
    {
      assert distances[i - 1, j - 1] == Cell(a, b, i - 1, j - 1);
      assert distances[i - 1, j] == Cell(a, b, i - 1, j);
      if a[i - 1] == b[j - 1] {
        distances[i, j] := distances[i - 1, j - 1];
      } else {
        distances[i, j] := Min3(distances[i - 1, j], distances[i, j - 1], distances[i - 1, j - 1]) + 1;
      }
    }
  }

  /** The index recurrence agrees with `Dist` on prefixes. */
  lemma {:induction false} CellIsDist(a: string, b: string, i: nat, j: nat)
    requires i <= |a| && j <= |b|
    ensures Cell(a, b, i, j) == Dist(a[..i], b[..j])
    decreases i + j
  {
    if i > 0 && j > 0 {
      assert a[..i][..i - 1] == a[..i - 1] && b[..j][..j - 1] == b[..j - 1];
      CellIsDist(a, b, i - 1, j - 1);
      if a[i - 1] != b[j - 1] {
        CellIsDist(a, b, i - 1, j);
        CellIsDist(a, b, i, j - 1);
      }
    }
  }

  /** The first column and the first row of the table: the distance to or from
      the empty string is the other string's length. */
  lemma DistBaseCases(a: string, b: string)
    ensures Dist(a, "") == |a|
    ensures Dist("", b) == |b|
  {
  }

  /** The distance is zero exactly for equal strings. */
  lemma {:induction false} DistZeroIffEqual(a: string, b: string)
    ensures Dist(a, b) == 0 <==> a == b
    decreases |a| + |b|
  {
    if |a| > 0 && |b| > 0 {
      var a', b' := a[..|a| - 1], b[..|b| - 1];
      DistZeroIffEqual(a', b');
      assert a == a' + [a[|a| - 1]] && b == b' + [b[|b| - 1]];
      if a == b {
        assert a' == b';
      }
    }
  }

  /** `Dist(s, s) == 0`: equal characters always copy the diagonal. */
  lemma DistSelf(s: string)
    ensures Dist(s, s) == 0
  {
    DistZeroIffEqual(s, s);
  }

  /** The recurrence is symmetric in its two arguments. */
  lemma {:induction false} DistSymmetric(a: string, b: string)
    ensures Dist(a, b) == Dist(b, a)
    decreases |a| + |b|
  {
    if |a| > 0 && |b| > 0 {
      var a', b' := a[..|a| - 1], b[..|b| - 1];
      DistSymmetric(a', b');
      if a[|a| - 1] != b[|b| - 1] {
        DistSymmetric(a', b);
        DistSymmetric(a, b');
      }
    }
  }

  /** Neighbouring cells of the table differ by at most one: dropping the last
      character of `a` lowers the distance by at most one, and dropping the last
      character of `b` raises it by at most one. The two facts need each other
      (an equal last character copies the diagonal cell). */
  lemma {:induction false} DistAdjacent(a: string, b: string)
    ensures |a| > 0 ==> Dist(a, b) <= Dist(a[..|a| - 1], b) + 1
    ensures |b| > 0 ==> Dist(a, b[..|b| - 1]) <= Dist(a, b) + 1
    decreases |a| + |b|
  {
    if |a| > 0 && |b| > 0 {
      var a', b' := a[..|a| - 1], b[..|b| - 1];
      DistAdjacent(a', b);
      DistAdjacent(a, b');
    }
  }

  /** Neighbouring cells of the table differ by at most one, in both
      directions: dropping the last character of either string changes the
      distance by at most one. */
  lemma DistNeighbours(a: string, b: string)
    ensures |a| > 0 ==> Dist(a, b) <= Dist(a[..|a| - 1], b) + 1 && Dist(a[..|a| - 1], b) <= Dist(a, b) + 1
    ensures |b| > 0 ==> Dist(a, b) <= Dist(a, b[..|b| - 1]) + 1 && Dist(a, b[..|b| - 1]) <= Dist(a, b) + 1
  {
    DistAdjacent(a, b);
    DistAdjacent(b, a);
    DistSymmetric(a, b);
    if |a| > 0 {
      DistSymmetric(b, a[..|a| - 1]);
    }
    if |b| > 0 {
      DistSymmetric(b[..|b| - 1], a);
    }
  }

  /** The distance from an extension `p + s` back to `p` is the length of the
      extension: the length difference is a lower bound, and deleting the
      characters of `s` one by one reaches it. */
  lemma {:induction false} DistExtension(p: string, s: string)
    ensures Dist(p + s, p) == |s|
    ensures Dist(p, p + s) == |s|
  {
    if |s| == 0 {
      assert p + s == p;
      DistSelf(p);
    } else {
      var s' := s[..|s| - 1];
      DistExtension(p, s');
      assert (p + s)[..|p + s| - 1] == p + s';
      DistAdjacent(p + s, p);
    }
    DistSymmetric(p + s, p);
  }
}

=== FILE: ranking.dfy ===
/**
  Similarity ranking: candidates ordered by their edit distance to a query.
  The ranking is a stable sort, because `Array.prototype.sort` has been
  required to be stable since ECMAScript 2019 (section 23.1.3.30 of
  ECMA-262). The sort is written once for any `key` (a stable insertion sort)
  and instantiated with the distance to the query. Sorting `{word, distance}`
  pairs by distance and projecting the words is the same as sorting the words
  by their distance, since the distance is a function of the word; the model
  sorts the words directly.
 */
module Ranking {
  import opened Levenshtein

  /** `ws` is non-decreasing in `key`. */
  predicate SortedBy(ws: seq<string>, key: string -> nat)
  {
    forall i, j :: 0 <= i < j < |ws| ==> key(ws[i]) <= key(ws[j])
  }

  /** The words of `ws` whose key is `d`, in their order in `ws`. */
  function WithKey(ws: seq<string>, key: string -> nat, d: nat): (r: seq<string>)
    ensures |r| <= |ws|
  {
    if |ws| == 0 then []
    else (if key(ws[0]) == d then [ws[0]] else []) + WithKey(ws[1..], key, d)
  }

  /** `ranked` is a stable sort of `words` by `key`: ordered by key, and words
      with equal keys keep their relative order. */
  ghost predicate IsStableSort(ranked: seq<string>, words: seq<string>, key: string -> nat)
  {
    && SortedBy(ranked, key)
    && forall d :: WithKey(ranked, key, d) == WithKey(words, key, d)
  }

  /** A word whose key is at most that of the head of a sorted sequence can go
      in front of it. */
  lemma ConsSorted(w: string, ws: seq<string>, key: string -> nat)
    requires SortedBy(ws, key)
    requires |ws| > 0 ==> key(w) <= key(ws[0])
    ensures SortedBy([w] + ws, key)
  {
    var r := [w] + ws;
    forall i, j | 0 <= i < j < |r|
      ensures key(r[i]) <= key(r[j])
    {
      if i == 0 {
        assert key(ws[0]) <= key(ws[j - 1]);
      }
    }
  }

  /** Inserts `w` in front of the first word whose key is at least as large. */
  function Insert(w: string, sorted: seq<string>, key: string -> nat): (r: seq<string>)
    requires SortedBy(sorted, key)
    ensures SortedBy(r, key)
    ensures multiset(r) == multiset(sorted) + multiset{w}
    ensures |r| > 0 && (r[0] == w || (|sorted| > 0 && r[0] == sorted[0]))
  {
    if |sorted| == 0 || key(w) <= key(sorted[0]) then
      ConsSorted(w, sorted, key);
      [w] + sorted
    else
      var rest := Insert(w, sorted[1..], key);
      assert sorted == [sorted[0]] + sorted[1..];
      ConsSorted(sorted[0], rest, key);
      [sorted[0]] + rest
  }

  /** Stable insertion sort by `key`: a permutation of `words`, ordered by key. */
  function SortByKey(words: seq<string>, key: string -> nat): (r: seq<string>)
    ensures multiset(r) == multiset(words)
    ensures SortedBy(r, key)
  {
    if |words| == 0 then []
    else
      assert words == [words[0]] + words[1..];
      Insert(words[0], SortByKey(words[1..], key), key)
  }

  lemma {:induction false} WithKeyConcat(a: seq<string>, b: seq<string>, key: string -> nat, d: nat)
    ensures WithKey(a + b, key, d) == WithKey(a, key, d) + WithKey(b, key, d)
  {
    if |a| == 0 {
      assert a + b == b;
    } else {
      assert (a + b)[1..] == a[1..] + b;
      WithKeyConcat(a[1..], b, key, d);
    }
  }

  /** Every word picked out for key `d` is a word of `ws` with key `d`. */
  lemma {:induction false} WithKeyMember(ws: seq<string>, key: string -> nat, d: nat, w: string)
    requires w in WithKey(ws, key, d)
    ensures w in ws && key(w) == d
  {
    if |ws| > 0 && w !in (if key(ws[0]) == d then [ws[0]] else []) {
      WithKeyMember(ws[1..], key, d, w);
    }
  }

  /** The first word is always picked out for its own key. */
  lemma WithKeyHead(ws: seq<string>, key: string -> nat)
    ensures |ws| > 0 ==> WithKey(ws, key, key(ws[0])) != []
  {
  }

  lemma WithKeySingleton(x: string, key: string -> nat, d: nat)
    ensures WithKey([x], key, d) == if key(x) == d then [x] else []
  {
    assert [x][1..] == [];
  }

  lemma SwapFront(x: seq<string>, y: seq<string>, z: seq<string>)
    requires x + y == y + x
    ensures x + (y + z) == y + (x + z)
  {
    assert x + (y + z) == (x + y) + z;
    assert y + (x + z) == (y + x) + z;
  }

  /** Inserting does not reorder words with equal keys: `w` goes before the
      words with its own key, which all came after it. */
  lemma {:induction false} InsertStable(w: string, sorted: seq<string>, key: string -> nat, d: nat)
    requires SortedBy(sorted, key)
    ensures WithKey(Insert(w, sorted, key), key, d) == WithKey([w] + sorted, key, d)
  {
    if |sorted| > 0 && key(w) > key(sorted[0]) {
      var s0, rest := sorted[0], sorted[1..];
      var ins := Insert(w, rest, key);
      var ks0, kw, krest := WithKey([s0], key, d), WithKey([w], key, d), WithKey(rest, key, d);
      assert WithKey(Insert(w, sorted, key), key, d) == ks0 + (kw + krest) by {
        assert Insert(w, sorted, key) == [s0] + ins;
        InsertStable(w, rest, key, d);
        WithKeyConcat([s0], ins, key, d);
        WithKeyConcat([w], rest, key, d);
      }
      assert WithKey([w] + sorted, key, d) == kw + (ks0 + krest) by {
        assert sorted == [s0] + rest;
        WithKeyConcat([w], sorted, key, d);
        WithKeyConcat([s0], rest, key, d);
      }
      assert ks0 + kw == kw + ks0 by {
        WithKeySingleton(w, key, d);
        WithKeySingleton(s0, key, d);
      }
      SwapFront(ks0, kw, krest);
    }
  }

  /** The sort is stable: for every key, the words with that key appear in the
      result in the same order as in the input. */
  lemma {:induction false} SortByKeyStable(words: seq<string>, key: string -> nat)
    ensures IsStableSort(SortByKey(words, key), words, key)
  {
    if |words| > 0 {
      var rest := SortByKey(words[1..], key);
      SortByKeyStable(words[1..], key);
      forall d: nat
        ensures WithKey(SortByKey(words, key), key, d) == WithKey(words, key, d)
      {
        var w0, tail := words[0], words[1..];
        assert SortByKey(words, key) == Insert(w0, rest, key);
        assert words == [w0] + tail;
        calc {
          WithKey(Insert(w0, rest, key), key, d);
          == { InsertStable(w0, rest, key, d); }
          WithKey([w0] + rest, key, d);
          == { WithKeyConcat([w0], rest, key, d); }
          WithKey([w0], key, d) + WithKey(rest, key, d);
          == // induction hypothesis
          WithKey([w0], key, d) + WithKey(tail, key, d);
          == { WithKeyConcat([w0], tail, key, d); }
          WithKey(words, key, d);
        }
      }
    }
  }

  /** There is only one stable sort: two sequences ordered by key that agree,
      key by key, on their words are equal. */
  lemma {:induction false} StableSortUnique(r1: seq<string>, r2: seq<string>, key: string -> nat)
    requires SortedBy(r1, key) && SortedBy(r2, key)
    requires forall d :: WithKey(r1, key, d) == WithKey(r2, key, d)
    ensures r1 == r2
    decreases |r1|
  {
    if |r1| > 0 && |r2| > 0 {
      var k1, k2 := key(r1[0]), key(r2[0]);
      assert k1 <= k2 by {
        assert r2[0] in WithKey(r2, key, k2);
        WithKeyMember(r1, key, k2, r2[0]);
      }
      assert k2 <= k1 by {
        assert r1[0] in WithKey(r1, key, k1);
        WithKeyMember(r2, key, k1, r1[0]);
      }
      assert r1[0] == r2[0] by {
        assert WithKey(r1, key, k1) == [r1[0]] + WithKey(r1[1..], key, k1);
        assert WithKey(r2, key, k1) == [r2[0]] + WithKey(r2[1..], key, k1);
        assert WithKey(r1, key, k1)[0] == WithKey(r2, key, k1)[0];
      }
      forall d | true
        ensures WithKey(r1[1..], key, d) == WithKey(r2[1..], key, d)
      {
        var head := if key(r1[0]) == d then [r1[0]] else [];
        var t1, t2 := WithKey(r1[1..], key, d), WithKey(r2[1..], key, d);
        assert WithKey(r1, key, d) == head + t1;
        assert WithKey(r2, key, d) == head + t2;
        assert t1 == (head + t1)[|head|..] && t2 == (head + t2)[|head|..];
      }
      StableSortUnique(r1[1..], r2[1..], key);
      assert r1 == [r1[0]] + r1[1..] && r2 == [r2[0]] + r2[1..];
    } else if |r1| > 0 || |r2| > 0 {
      // the non-empty one has a key for which the empty one picks out nothing
      WithKeyHead(r1, key);
      WithKeyHead(r2, key);
      assert false;
    }
  }

  /** `SortByKey` is exactly the stable sort: its result is one, and any stable
      sort of the same words is its result. */
  lemma SortByKeyIsTheStableSort(words: seq<string>, key: string -> nat, ranked: seq<string>)
    ensures IsStableSort(ranked, words, key) <==> ranked == SortByKey(words, key)
  {
    SortByKeyStable(words, key);
    if IsStableSort(ranked, words, key) {
      StableSortUnique(ranked, SortByKey(words, key), key);
    }
  }

  // ----- Ranking by edit distance -----

  /** The sort key of `sortBySimilarity`: the distance of a word to `query`. */
  function DistanceTo(query: string): string -> nat
  {
    w => Dist(w, query)
  }

  /** `sortBySimilarity(words, singleWord)`: a permutation of `words`,
      non-decreasing in edit distance to `query`. */
  function SortBySimilarity(words: seq<string>, query: string): (r: seq<string>)
    ensures multiset(r) == multiset(words)
    ensures forall i, j :: 0 <= i < j < |r| ==> Dist(r[i], query) <= Dist(r[j], query)
  {
    SortByKey(words, DistanceTo(query))
  }

  /** The ranking is the stable sort by distance: words at equal distance keep
      their input order, and no other ordering of the words has both
      properties. */
  lemma SortBySimilarityIsStable(words: seq<string>, query: string, ranked: seq<string>)
    ensures IsStableSort(SortBySimilarity(words, query), words, DistanceTo(query))
    ensures IsStableSort(ranked, words, DistanceTo(query)) ==> ranked == SortBySimilarity(words, query)
  {
    SortByKeyIsTheStableSort(words, DistanceTo(query), ranked);
    SortByKeyStable(words, DistanceTo(query));
  }
}

=== FILE: strings.dfy ===
/**
  The JavaScript string operations the highlighter relies on, for one-character
  separators: `split`, `join`, a global character replacement, the non-global
  `replace` of a single character, and counting a character.
 */
module Strings {

  /** Number of occurrences of `c` in `s`. */
  function Count(s: string, c: char): (n: nat)
    ensures n <= |s|
    ensures n == 0 <==> c !in s
  {
    if |s| == 0 then 0
    else (if s[0] == c then 1 else 0) + Count(s[1..], c)
  }

  /** `s.split(sep)`: the pieces between separators, in order. There is always
      one more piece than there are separators, and no piece holds `sep`. */
  function Split(s: string, sep: char): (parts: seq<string>)
    ensures |parts| == Count(s, sep) + 1
    ensures forall i :: 0 <= i < |parts| ==> sep !in parts[i]
  {
    if |s| == 0 then [""]
    else
      var rest := Split(s[1..], sep);
      if s[0] == sep then [""] + rest
      else [[s[0]] + rest[0]] + rest[1..]
  }

  /** `parts.join(sep)`; joining no parts gives the empty string. The join
      starts with the first part, and joining separator-free parts puts
      exactly one separator between each two of them. */
  function Join(parts: seq<string>, sep: char): (r: string)
    ensures |parts| == 0 ==> r == ""
    ensures |parts| > 0 ==> parts[0] <= r
    ensures |parts| > 0 && (forall i :: 0 <= i < |parts| ==> sep !in parts[i]) ==>
      Count(r, sep) == |parts| - 1
  {
    if |parts| == 0 then ""
    else if |parts| == 1 then parts[0]
    else
      var rest := Join(parts[1..], sep);
      assert Count(parts[0] + [sep] + rest, sep) == Count(parts[0], sep) + 1 + Count(rest, sep) by {
        CountConcat(parts[0] + [sep], rest, sep);
        CountConcat(parts[0], [sep], sep);
      }
      parts[0] + [sep] + rest
  }

  /** Every `from` replaced by `to` (a global replacement). */
  function Translate(s: string, from: char, to: char): (r: string)
    ensures |r| == |s|
    ensures from != to ==> from !in r
  {
    seq(|s|, i requires 0 <= i < |s| => if s[i] == from then to else s[i])
  }

  /** `s.replace(/from/, to)` without the `g` flag: the first `from` becomes
      `to` and every other character stays (`ReplaceFirstCount` compares it
      with the global replacement). */
  function ReplaceFirst(s: string, from: char, to: char): (r: string)
    ensures |r| == |s|
    ensures forall k :: 0 <= k < |s| ==>
      r[k] == if s[k] == from && from !in s[..k] then to else s[k]
  {
    if |s| == 0 then s
    else if s[0] == from then [to] + s[1..]
    else
      var rest := ReplaceFirst(s[1..], from, to);
      assert forall k :: 1 <= k <= |s| ==> s[..k] == [s[0]] + s[1..][..k - 1];
      [s[0]] + rest
  }

  // ----- Count -----

  /** The recursive count is the multiplicity of `c` in the multiset of `s`. */
  lemma {:induction false} CountIsMultiplicity(s: string, c: char)
    ensures Count(s, c) == multiset(s)[c]
  {
    if |s| > 0 {
      CountIsMultiplicity(s[1..], c);
      assert s == [s[0]] + s[1..];
    }
  }

  lemma {:induction false} CountConcat(a: string, b: string, c: char)
    ensures Count(a + b, c) == Count(a, c) + Count(b, c)
  {
    if |a| > 0 {
      assert (a + b)[1..] == a[1..] + b;
      CountConcat(a[1..], b, c);
    } else {
      assert a + b == b;
    }
  }

  // ----- Split and Join -----

  /** A string without the separator splits into itself alone. */
  lemma {:induction false} SplitNoSeparator(s: string, sep: char)
    requires sep !in s
    ensures Split(s, sep) == [s]
  {
    if |s| > 0 {
      SplitNoSeparator(s[1..], sep);
      assert s == [s[0]] + s[1..];
    }
  }

  /** Extending the first piece of `left` extends the first piece of
      `left + right`. */
  lemma ExtendFirstPiece(c: char, left: seq<string>, right: seq<string>)
    requires |left| >= 1
    ensures [[c] + (left + right)[0]] + (left + right)[1..] == ([[c] + left[0]] + left[1..]) + right
  {
    assert (left + right)[1..] == left[1..] + right;
  }

  /** Splitting at one separator splits the two sides independently. */
  lemma {:induction false} SplitAround(a: string, b: string, sep: char)
    ensures Split(a + [sep] + b, sep) == Split(a, sep) + Split(b, sep)
  {
    var whole := a + [sep] + b;
    if |a| == 0 {
      assert whole[0] == sep && whole[1..] == b;
      assert Split(whole, sep) == [""] + Split(b, sep);
    } else {
      var left, right := Split(a[1..], sep), Split(b, sep);
      assert whole[0] == a[0] && whole[1..] == a[1..] + [sep] + b;
      var rest := Split(whole[1..], sep);
      assert rest == left + right by {
        SplitAround(a[1..], b, sep);
      }
      if a[0] == sep {
        assert Split(whole, sep) == [""] + (left + right);
        assert Split(a, sep) == [""] + left;
      } else {
        assert Split(whole, sep) == [[a[0]] + rest[0]] + rest[1..];
        assert Split(a, sep) == [[a[0]] + left[0]] + left[1..];
        ExtendFirstPiece(a[0], left, right);
      }
    }
  }

  /** Extending the first piece extends the join by the same character. */
  lemma JoinExtendFirst(c: char, parts: seq<string>, sep: char)
    requires |parts| >= 1
    ensures Join([[c] + parts[0]] + parts[1..], sep) == [c] + Join(parts, sep)
  {
    var extended := [[c] + parts[0]] + parts[1..];
    assert extended[0] == [c] + parts[0] && extended[1..] == parts[1..];
    if |parts| > 1 {
      assert [c] + parts[0] + [sep] + Join(parts[1..], sep) == [c] + (parts[0] + [sep] + Join(parts[1..], sep));
    }
  }

  /** Joining the pieces of a split gives back the string. */
  lemma {:induction false} JoinSplit(s: string, sep: char)
    ensures Join(Split(s, sep), sep) == s
  {
    if |s| > 0 {
      var rest := Split(s[1..], sep);
      JoinSplit(s[1..], sep);
      if s[0] == sep {
        assert ([""] + rest)[1..] == rest;
      } else {
        JoinExtendFirst(s[0], rest, sep);
      }
      assert s == [s[0]] + s[1..];
    }
  }

  /** Splitting a join of separator-free pieces gives back the pieces. */
  lemma {:induction false} SplitJoin(parts: seq<string>, sep: char)
    requires |parts| >= 1
    requires forall i :: 0 <= i < |parts| ==> sep !in parts[i]
    ensures Split(Join(parts, sep), sep) == parts
  {
    if |parts| == 1 {
      SplitNoSeparator(parts[0], sep);
    } else {
      SplitJoin(parts[1..], sep);
      SplitAround(parts[0], Join(parts[1..], sep), sep);
      SplitNoSeparator(parts[0], sep);
      assert parts == [parts[0]] + parts[1..];
    }
  }

  /** The non-global replacement changes the first `from` and nothing else. */
  lemma {:induction false} ReplaceFirstAt(x: string, y: string, from: char, to: char)
    requires from !in x
    ensures ReplaceFirst(x + [from] + y, from, to) == x + [to] + y
  {
    if |x| > 0 {
      assert (x + [from] + y)[1..] == x[1..] + [from] + y;
      ReplaceFirstAt(x[1..], y, from, to);
    }
  }

  /** The non-global replacement agrees with the global one when at
      most one `from` occurs, and otherwise leaves one fewer `from` behind. */
  lemma {:induction false} ReplaceFirstCount(s: string, from: char, to: char)
    ensures Count(s, from) <= 1 ==> ReplaceFirst(s, from, to) == Translate(s, from, to)
    ensures from != to ==>
      Count(ReplaceFirst(s, from, to), from) == if from in s then Count(s, from) - 1 else 0
  {
    if |s| > 0 {
      ReplaceFirstCount(s[1..], from, to);
      if s[0] == from {
        assert ([to] + s[1..])[1..] == s[1..];
        if Count(s, from) <= 1 {
          TranslateAbsent(s[1..], from, to);
        }
      } else {
        assert ([s[0]] + ReplaceFirst(s[1..], from, to))[1..] == ReplaceFirst(s[1..], from, to);
      }
    }
  }

  // ----- Translate -----

  lemma TranslateConcat(a: string, b: string, from: char, to: char)
    ensures Translate(a + b, from, to) == Translate(a, from, to) + Translate(b, from, to)
  {
  }

  lemma TranslateAbsent(s: string, from: char, to: char)
    requires from !in s
    ensures Translate(s, from, to) == s
  {
  }

  /** Translating there and back is the identity when `to` did not occur. */
  lemma TranslateBack(s: string, from: char, to: char)
    requires to !in s
    ensures Translate(Translate(s, from, to), to, from) == s
  {
  }

  /** A global replacement turns every `from` into a `to`, on top of the `to`s already there. */
  lemma {:induction false} CountTranslate(s: string, from: char, to: char)
    requires from != to
    ensures Count(Translate(s, from, to), to) == Count(s, from) + Count(s, to)
  {
    if |s| > 0 {
      var t := Translate(s, from, to);
      assert t[1..] == Translate(s[1..], from, to);
      CountTranslate(s[1..], from, to);
    }
  }

  /** Translating a piece without `from`, a `from` and the rest. */
  lemma TranslateAround(head: string, rest: string, from: char, to: char)
    requires from !in head
    ensures Translate(head + [from] + rest, from, to) == head + [to] + Translate(rest, from, to)
  {
    TranslateAbsent(head, from, to);
    TranslateConcat(head + [from], rest, from, to);
    TranslateConcat(head, [from], from, to);
  }

  /** Joining separator-free pieces with `to` is joining them with `from` and
      then replacing every `from` by `to`. */
  lemma {:induction false} JoinTranslate(parts: seq<string>, from: char, to: char)
    requires forall i :: 0 <= i < |parts| ==> from !in parts[i]
    ensures Join(parts, to) == Translate(Join(parts, from), from, to)
  {
    if |parts| == 1 {
      TranslateAbsent(parts[0], from, to);
    } else if |parts| > 1 {
      JoinTranslate(parts[1..], from, to);
      TranslateAround(parts[0], Join(parts[1..], from), from, to);
    }
  }
}

=== FILE: wrappers.dfy ===
/** The optional value used for JavaScript's `undefined`/`null` results. */
module Wrappers {

  datatype Option<+T> = None | Some(value: T)
}
